=== FILE: README.md ===
# MakeHuman export transforms, modelled in Dafny

This project models the three data transforms at the core of the
MakeHuman-to-three.js export script `scripts/export_makehuman.py`:

- **Skeleton bone splitting** (`parse_skeleton_bones`). A MakeHuman bone has a
  head, offset from its parent's tail, and a tail, offset from its own head.
  A three.js bone has one offset. So every bone becomes two records, a
  `<name>____head` record and a `<name>` record, each `{name, pos, rotq, scl,
  parent}`. Module `Skeleton` in `skeleton.dfy`.
- **Skin index/weight splitting** (`vertex_weights_to_skin_weights`). Each
  row of the compiled vertex-weight table is split. Its first
  `influencesPerVertex` entries go to `skinIndices` and the rest go to
  `skinWeights`. Both are flattened in row order, and every index is doubled
  to match the doubled bone list. Module `SkinWeights` in `skin_weights.dfy`.
- **JSON chunk post-processing** (`NP_MH_Encoder.iterencode`). The base
  JSON encoder yields a stream of chunks. A counter of open lists is kept.
  A chunk that opens a list loses every newline. A chunk inside a list
  loses its newline-plus-indentation runs, that is, a newline followed by
  whitespace, together with that whitespace. Its trailing `,` or `:` becomes
  the configured separator. A newline that no whitespace follows stays; the
  base encoder yields one with an indentation of 0. With a positive
  indentation, list items are written on one line. Module `ChunkEncoder` in
  `chunk_encoder.dfy` holds the encoder. Module `PyText` in `py_text.dfy`
  holds the Python string operations and the two regular-expression
  substitutions it uses, written as string functions.

`parse_skeleton_bones` and `iterencode` change state step by step. They are
methods with loops (`Skeleton.ParseSkeletonBones`,
`ChunkEncoder.Encoder.IterEncode`), each proved against a specification
function (`SplitBones`, `Encode`). The index/weight split is pure, so it is a
function (`SkinWeights.VertexWeightsToSkinWeights`).

The main results:

- Bone i's head record is at 2i and its tail record at 2i+1.
- The head record's parent is the parent bone's tail record. The tail
  record's parent is the bone's own head record.
- The skeleton's names and parent structure can be read back from the split
  list.
- Adding the offsets along a chain of parent records puts every head and
  tail where the host skeleton has it, measured from the root's head.
- The two skin arrays hold every table entry exactly once. Reading them back
  vertex by vertex gives the compiled table again.
- A doubled skin index points at the `____head` record of the bone it named.
- The encoder yields one chunk per input chunk, in order. Its counter equals
  the list openings seen minus the list closings yielded.
- Inside a list, a chunk's newline-plus-indentation runs and trailing
  whitespace go. Every other character stays in place, whitespace inside
  string values included. A final `,` or `:` is replaced by the configured
  separator, written out exactly. When the separators themselves hold no
  newline-plus-indentation run and do not start with whitespace (the usual
  `,` and `: ` do not), no in-list chunk keeps such a run.
- A list opening `[`, newline, indentation, first item becomes `[` followed
  by the item. The item is unchanged when it holds no `[`, no newline and
  no leading or trailing whitespace.
- The `[`-whitespace substitution on a list opening does not know about
  string values. A `[` followed by whitespace anywhere in that chunk loses
  the whitespace, even inside a string. So a first item that is the string
  `"[ a"` is written as `"[a"`, and the exported data changes. Only the
  opening chunk is affected, because the substitution runs only on a chunk
  that starts with `[`.
- The string functions are pinned down exactly, not only up to whitespace.
  Each regular-expression substitution leaves text before its first match
  alone and deletes exactly the matched whitespace run. Newline removal works
  piece by piece and leaves newline-free text unchanged.

## Model

| member | source | states |
|---|---|---|
| `Skeleton.SplitPrefix` | scripts/export_makehuman.py:186-221 | after n bones, the list has 2n records: the head record of bone i at 2i and its tail record at 2i+1 |
| `Skeleton.ParseSkeletonBones` | scripts/export_makehuman.py:175-222 | the loop builds exactly the split list: two records per bone, in bone order, with the tail's parent read off the list length |
| `Skeleton.HeadRecord` | scripts/export_makehuman.py:189-211 | the head record is named after the bone with `____head` appended; its parent is -1 exactly for a root bone; otherwise its parent is 2p+1, the parent bone's tail record, and its offset added to the parent's tail gives the bone's head |
| `Skeleton.TailRecord` | scripts/export_makehuman.py:213-220 | the tail record has the bone's own name and parent 2i, the bone's head record, and its offset added to the head gives the tail |
| `Skeleton.HeadRecordLinks` | scripts/export_makehuman.py:189-211 | head record i is named after the bone with `____head` appended and has rotation [0,0,0,1] and scale [1,1,1]; a root has parent -1 and position [0,0,0]; otherwise the parent is 2p+1, the record named after parent bone p, and the position is the head minus the parent's tail |
| `Skeleton.TailRecordLinks` | scripts/export_makehuman.py:213-221 | tail record i has the bone's own name, position tail minus head, identity rotation and unit scale, and parent 2i, the record named `<name>____head` |
| `Skeleton.SplitParentsBefore` | scripts/export_makehuman.py:198-219 | every record's parent is -1 or an earlier record exactly when every bone's parent is listed before it |
| `Skeleton.SplitKeepsPositions` | scripts/export_makehuman.py:205-216 | summing record offsets up the parent chain gives each bone's head and tail position relative to its root bone's head |
| `Skeleton.RecoverTopologyOfSplit` | scripts/export_makehuman.py:186-221 | each bone's name and parent index can be read back from the split list (tail record's name; (head parent - 1) / 2) |
| `Skeleton.SplitNamesDistinct` | scripts/export_makehuman.py:191-215 | distinct bone names, none equal to another name plus `____head`, give distinct record names |
| `SkinWeights.Front` | scripts/export_makehuman.py:165 | the index part of a row is a prefix of the row of length min(k, row length): its first k entries, or the whole row when it is shorter |
| `SkinWeights.Back` | scripts/export_makehuman.py:166 | the weight part of a row is what follows the index part: together they make up the row |
| `SkinWeights.Flatten` | scripts/export_makehuman.py:167-168 | every entry of every row occurs in the flattened list, as often as in the row at least |
| `SkinWeights.VertexWeightsToSkinWeights` | scripts/export_makehuman.py:165-171 | the halved indices together with the weights are, as a multiset, exactly the entries of the compiled table |
| `SkinWeights.SplitKeepsEntries` | scripts/export_makehuman.py:165-168 | the flattened index parts and weight parts together hold exactly the table's entries |
| `SkinWeights.FlattenLength` | scripts/export_makehuman.py:167-168 | flattening n rows of width w gives n*w entries |
| `SkinWeights.FlattenAt` | scripts/export_makehuman.py:167-168 | entry c of row v is entry v*w+c of the flattened list |
| `SkinWeights.SkinArraysLength` | scripts/export_makehuman.py:165-168 | with k = min(influencesPerVertex, width), skinIndices has k entries per vertex and skinWeights width-k |
| `SkinWeights.SkinArraysAt` | scripts/export_makehuman.py:165-171 | row entry c < k of vertex v is at v*k+c of skinIndices, doubled; entry c >= k is at v*(width-k)+(c-k) of skinWeights, unchanged |
| `SkinWeights.ColumnsUniform` | scripts/export_makehuman.py:165-166 | for rows of `width` entries, every index part has k = min(influencesPerVertex, width) entries and every weight part width-k |
| `SkinWeights.RowSplitAt` | scripts/export_makehuman.py:165-166 | entry c of a row is entry c of its index part when c < k, else entry c-k of its weight part |
| `SkinWeights.IndexPartAt` | scripts/export_makehuman.py:165-171 | entry c < k of row v is at v*k+c of the flattened, doubled index parts, doubled |
| `SkinWeights.WeightPartAt` | scripts/export_makehuman.py:166-168 | entry c >= k of row v is at v*(width-k)+(c-k) of the flattened weight parts |
| `SkinWeights.SkinArraysCons` | scripts/export_makehuman.py:165-171 | the arrays of a table are those of its first row followed by those of the other rows, in row order |
| `SkinWeights.RejoinRecoversCompiled` | scripts/export_makehuman.py:165-173 | reading k halved indices and width-k weights per vertex off the two arrays gives back the compiled table, so nothing is dropped, duplicated or moved |
| `SkinWeights.Doubled` | scripts/export_makehuman.py:171 | doubling the indices loses nothing: halving the result gives the input back |
| `SkinWeights.DoubledIndexSelectsHeadRecord` | scripts/export_makehuman.py:170-171 | a table entry naming bone j appears in skinIndices as 2j, the position of bone j's `____head` record in the split bone list |
| `PyText.RemoveNewlines` | scripts/export_makehuman.py:18 | removing newlines leaves no newline and keeps every other character, with the same count, and the same non-whitespace content |
| `PyText.RemoveNewlinesConcat` | scripts/export_makehuman.py:18 | removing newlines from a concatenation is removing them from each part, so kept characters keep their order |
| `PyText.RemoveNewlinesCons` | scripts/export_makehuman.py:18 | a leading newline is dropped and any other leading character is kept |
| `PyText.RemoveNewlinesOfOneLine` | scripts/export_makehuman.py:18 | a string without a newline is unchanged |
| `PyText.IsSpace` | scripts/export_makehuman.py:18-21 | the whitespace set of Python 3's `str.isspace`, which is also what `\s` matches in a `str` pattern and what `rstrip()` strips: space, tab, newline and carriage return are in it and no printable ASCII character is |
| `PyText.RStrip` | scripts/export_makehuman.py:18 | the result is a prefix of the input that does not end in whitespace, and all cut-off characters are whitespace |
| `PyText.RStripKeepsContent` | scripts/export_makehuman.py:21 | stripping trailing whitespace keeps the non-whitespace content |
| `PyText.RStripKeepsNoNewlineRun` | scripts/export_makehuman.py:21 | stripping trailing whitespace creates no newline-plus-whitespace run |
| `PyText.RStripBracketRun` | scripts/export_makehuman.py:18 | `[` followed only by whitespace strips to `[` |
| `PyText.DropLeadingSpace` | scripts/export_makehuman.py:19-21 | the greedy whitespace run: a suffix that does not start with whitespace, with only whitespace dropped |
| `PyText.SubNewlineRuns` | scripts/export_makehuman.py:21 | the result has no newline followed by whitespace, keeps the non-whitespace content, keeps a non-whitespace first character, and leaves a string without such runs unchanged |
| `PyText.SubNewlineRunsPrefix` | scripts/export_makehuman.py:21 | text before the first newline is kept as it is, whitespace included |
| `PyText.SubNewlineRunsDropsRun` | scripts/export_makehuman.py:21 | a newline followed by a whitespace run is deleted with the whole run (the match is greedy), and nothing after it |
| `PyText.SubNewlineRunsKeepsNewline` | scripts/export_makehuman.py:21 | a newline not followed by whitespace is kept |
| `PyText.SubBracketSpaces` | scripts/export_makehuman.py:19 | the result has no `[` followed by whitespace, keeps the non-whitespace content and keeps a non-whitespace first character |
| `PyText.SubBracketSpacesKeepsEnd` | scripts/export_makehuman.py:18-19 | a string not ending in whitespace keeps its last character |
| `PyText.SubBracketSpacesNoNewline` | scripts/export_makehuman.py:18-19 | the substitution introduces no newline |
| `PyText.SubBracketSpacesFixedPoint` | scripts/export_makehuman.py:19 | a string with no `[` followed by whitespace is unchanged, so the substitution is idempotent |
| `PyText.SubBracketSpacesPrefix` | scripts/export_makehuman.py:19 | text before the first `[` is kept as it is, whitespace included |
| `PyText.SubBracketSpacesDropsRun` | scripts/export_makehuman.py:19 | a `[` followed by a whitespace run loses the whole run and keeps the bracket |
| `PyText.SubBracketSpacesKeepsBracket` | scripts/export_makehuman.py:19 | a `[` not followed by whitespace is kept |
| `PyText.SubBracketSpacesOfLeadRun` | scripts/export_makehuman.py:19 | `[`, a whitespace run, then text that does not start with whitespace: the run is deleted and the rest is substituted in turn |
| `PyText.SubBracketSpacesOfOpening` | scripts/export_makehuman.py:19 | `[`, a whitespace run, then text without `[` that does not start with whitespace: only the run is deleted |
| `ChunkEncoder.FlattenItem` | scripts/export_makehuman.py:21 | an in-list chunk after run removal and stripping has no newline-plus-indentation, no trailing whitespace and the same non-whitespace content |
| `ChunkEncoder.FlattenItemOfOneLine` | scripts/export_makehuman.py:21 | a chunk without a newline only loses its trailing whitespace |
| `ChunkEncoder.FlattenItemKeepsBareNewline` | scripts/export_makehuman.py:21 | a newline that no whitespace follows is not removed; only trailing whitespace goes |
| `ChunkEncoder.FlattenItemOfIndented` | scripts/export_makehuman.py:21 | text, a newline with its indentation, then an item: only the newline and the indentation go, then trailing whitespace |
| `ChunkEncoder.CompactOpening` | scripts/export_makehuman.py:16-19 | a chunk opening a list still starts with `[`, has no newline, no trailing whitespace and no whitespace after a `[`, and keeps its non-whitespace content |
| `ChunkEncoder.CompactOpeningOfItem` | scripts/export_makehuman.py:16-19 | an opening chunk `[`, a layout run, then a one-line item without surrounding whitespace becomes `[` followed by the item after the `[`-whitespace substitution |
| `ChunkEncoder.OpeningAltersItem` | scripts/export_makehuman.py:16-19 | a `[` followed by whitespace inside the first item, inside a string value too, loses that whitespace: `[`, layout, `"[ a"` becomes `["[a"` |
| `ChunkEncoder.CompactOpeningOfOpening` | scripts/export_makehuman.py:16-19 | an opening chunk `[`, a layout run, then an item with no newline, no `[` and no surrounding whitespace becomes exactly `[` followed by the item |
| `ChunkEncoder.OpeningNewlinesRemoved` | scripts/export_makehuman.py:18 | newline removal on such a chunk only touches the layout run |
| `ChunkEncoder.ReplaceTrailingSeparator` | scripts/export_makehuman.py:22-25 | a final `,` is replaced by the item separator and a final `:` by the key separator, everything before it kept; a chunk ending otherwise, or empty, is unchanged |
| `ChunkEncoder.RewriteChunk` | scripts/export_makehuman.py:16-25 | an opening chunk is compacted as above; a chunk at level 0 or below that does not start with `[` is yielded unchanged |
| `ChunkEncoder.NextLevel` | scripts/export_makehuman.py:16-27 | one chunk moves the counter by at most one; outside a list, a chunk that does not open one lowers it exactly when it ends with `]` |
| `ChunkEncoder.LevelAfter` | scripts/export_makehuman.py:14-27 | after n chunks the counter lies between -n and n |
| `ChunkEncoder.Encode` | scripts/export_makehuman.py:15-28 | one output chunk per input chunk |
| `ChunkEncoder.EncodeAt` | scripts/export_makehuman.py:14-28 | output chunk i is input chunk i rewritten at the level reached after chunks 0..i-1 |
| `ChunkEncoder.EncodeLast` | scripts/export_makehuman.py:15-28 | the last output chunk is the last input chunk rewritten at the level the others leave |
| `ChunkEncoder.EncodeDropLast` | scripts/export_makehuman.py:15-28 | without its last chunk, the output is the output for the input without its last chunk |
| `ChunkEncoder.EncodePrefix` | scripts/export_makehuman.py:15-28 | the stream is produced chunk by chunk: the output for the first n input chunks is the first n output chunks |
| `ChunkEncoder.LevelCountsBrackets` | scripts/export_makehuman.py:14-27 | the counter equals the number of input chunks starting with `[` minus the number of yielded chunks ending with `]` |
| `ChunkEncoder.InsideListContent` | scripts/export_makehuman.py:20-25 | inside a list, a chunk that does not open a list is flattened as `FlattenItem` says; if that ends in `,` the result is it without the `,` followed by the item separator exactly, likewise `:` and the key separator, and otherwise it is yielded as flattened. In terms of content: a final `,` or `:` becomes the separator, the rest is kept, and an all-whitespace chunk becomes empty |
| `ChunkEncoder.InsideListOneLineItem` | scripts/export_makehuman.py:20-25 | an in-list chunk on one line ending in `,` or `:` keeps every character before that separator, whitespace included, and ends with the configured separator |
| `ChunkEncoder.InsideListIndentZero` | scripts/export_makehuman.py:20-25 | with an indentation of 0, the in-list chunk `,`, newline, `2` is yielded unchanged, newline included |
| `ChunkEncoder.InsideListFlat` | scripts/export_makehuman.py:20-25 | with separators that do not start with whitespace and hold no newline-plus-indentation, no in-list chunk keeps a newline-plus-indentation run |
| `ChunkEncoder.Encoder.Step` | scripts/export_makehuman.py:16-27 | one loop iteration yields the rewritten chunk and the next counter value |
| `ChunkEncoder.Encoder.IterEncode` | scripts/export_makehuman.py:12-28 | the generator yields exactly the encoded stream: as many chunks as it is given, in order, each rewritten at the level reached before it |

## Left out

- `NP_MH_Encoder.default` (scripts/export_makehuman.py:30-46) is not modelled. It dispatches on numpy types and host-application class names and rounds float32 values, all foreign types and floats.
- `writeMaterial`, `material_to_mtl`, `writeTexture`, `copyTextureToNewLocation` and `copyAndCompress` (scripts/export_makehuman.py:49-146) are not modelled. They are file writes, `%.4g` float formatting, directory creation, path resolution and image resizing.
- The base JSON encoder is not modelled. Its chunk stream is any sequence of strings. The generator's laziness is not modelled: the whole stream is taken and returned at once.
- The encoder's constructor takes the two separators directly. How the base JSON encoder picks them from `indent` and `separators` is not modelled.
- The host library's `compiled(...)` call and the `_nWeights` check are not modelled. That check only logs an error. The compiled table is an input.
- Weights are not rounded to 4 decimals, and table entries, positions and offsets are exact reals. Float arithmetic is not modelled.
- The tail offset is serialised as an array rather than a list in the source. That difference only matters to the encoder's `default`, which is not modelled.
- `SkinWeights.VertexWeightsToSkinWeights`: rows are concatenated even when their lengths differ. numpy would not flatten such a ragged table. The positional lemmas assume rows of equal width, which is what the compiled table has.
- `SkinWeights.VertexWeightsToSkinWeights`: `influencesPerVertex` is a natural number. Python's slicing from the end for a negative count is not modelled.
- `Skeleton.ParseSkeletonBones` requires every bone's parent to be a bone of the same skeleton. The parent is given by its `index`, its position in the list of bones. This holds for any host skeleton, and the source reads `parent.index` and `parent.tailPos` on that basis.
- `PyText.IsSpace` is the whitespace of Python 3 strings. Under Python 2 the chunks are byte strings. There, both `\s` and `rstrip()` use only the six ASCII whitespace characters: space, tab, newline, vertical tab, form feed and carriage return. The Python 2 behaviour is not modelled.
- A bone's parent is an optional index. Python's truthiness test on the parent object is the test for its presence.

=== FILE: chunk_encoder.dfy ===
/** The JSON encoder subclass `NP_MH_Encoder` and its `iterencode`
    post-processor (scripts/export_makehuman.py:9-28). The base encoder's
    chunk stream is taken as an arbitrary sequence of strings; the
    post-processor keeps a counter of open lists and, inside a list, squeezes
    the layout out of each chunk so that arrays come out on one line. */
module ChunkEncoder {
  import opened PyText

  /** The layout of a chunk inside a list: newline-plus-indentation runs
      removed, then trailing whitespace stripped. */
  function FlattenItem(s: string): (t: string)
    ensures NoNewlineRun(t)
    ensures !EndsWithSpace(t)
    ensures NonSpace(t) == NonSpace(s)
  {
    var u := SubNewlineRuns(s);
    RStripKeepsContent(u);
    RStripKeepsNoNewlineRun(u);
    RStrip(u)
  }

  /** A chunk without a newline only loses its trailing whitespace: the
      whitespace inside it, such as that inside a string value, is kept. */
  lemma FlattenItemOfOneLine(s: string)
    requires '\n' !in s
    ensures FlattenItem(s) == RStrip(s)
  {
    SubNewlineRunsPrefix(s, []);
    assert s + [] == s;
  }

  /** An item laid out on a fresh line: the text before the newline, the
      newline with its indentation, then the item. Only the newline and the
      indentation go (then trailing whitespace), everything else stays in
      place. */
  lemma FlattenItemOfIndented(a: string, w: string, b: string)
    requires '\n' !in a && '\n' !in b
    requires w != [] && AllSpace(w) && (b == [] || !IsSpace(b[0]))
    ensures FlattenItem(a + "\n" + w + b) == RStrip(a + b)
  {
    ConcatAssoc(a, "\n", w);
    ConcatAssoc(a, "\n" + w, b);
    SubNewlineRunsPrefix(a, "\n" + w + b);
    SubNewlineRunsDropsRun(w, b);
    SubNewlineRunsPrefix(b, []);
    assert b + [] == b;
  }

  /** A newline that no whitespace follows, as with an indentation of 0, is
      not part of a run and stays in the chunk. */
  lemma FlattenItemKeepsBareNewline(a: string, b: string)
    requires '\n' !in a && '\n' !in b
    requires b == [] || !IsSpace(b[0])
    ensures FlattenItem(a + "\n" + b) == RStrip(a + "\n" + b)
  {
    ConcatAssoc(a, "\n", b);
    SubNewlineRunsPrefix(a, "\n" + b);
    SubNewlineRunsKeepsNewline(b);
    SubNewlineRunsPrefix(b, []);
    assert b + [] == b;
  }

  /** A trailing `,` becomes the item separator, a trailing `:` the key
      separator; everything before it is kept, and a chunk ending otherwise
      is left alone. */
  function ReplaceTrailingSeparator(t: string, itemSep: string, keySep: string): (r: string)
    ensures t != [] && t[|t| - 1] == ',' ==> t[..|t| - 1] <= r && r[|t| - 1..] == itemSep
    ensures t != [] && t[|t| - 1] == ':' ==> t[..|t| - 1] <= r && r[|t| - 1..] == keySep
    ensures t == [] || (t[|t| - 1] != ',' && t[|t| - 1] != ':') ==> r == t
  {
    if t != [] && t[|t| - 1] == ',' then t[..|t| - 1] + itemSep
    else if t != [] && t[|t| - 1] == ':' then t[..|t| - 1] + keySep
    else t
  }

  /** The chunk that opens a list: every newline removed, trailing
      whitespace stripped, and no whitespace left after a `[`. */
  function CompactOpening(s: string): (r: string)
    requires StartsWithBracket(s)
    ensures StartsWithBracket(r) && '\n' !in r && !EndsWithSpace(r)
    ensures NoSpaceAfterBracket(r) && NonSpace(r) == NonSpace(s)
  {
    var u := RStrip(RemoveNewlines(s));
    assert u != [] && u[0] == '[' by {
      var v := RemoveNewlines(s);
      assert v[0] == '[' && !IsSpace(v[0]);
    }
    assert '\n' !in u by {
      assert forall c :: c in u ==> c in RemoveNewlines(s);
    }
    RStripKeepsContent(RemoveNewlines(s));
    SubBracketSpacesKeepsEnd(u);
    SubBracketSpacesNoNewline(u);
    SubBracketSpaces(u)
  }

  /** The shape of a list opening as the base encoder yields it: `[`, a
      layout run of newlines and indentation, then the first item (or
      nothing). The layout run goes, and the item, on one line, goes
      through the bracket substitution too: a `[` followed by whitespace
      inside it, even inside a string value, loses that whitespace. */
  lemma CompactOpeningOfItem(w: string, b: string)
    requires AllSpace(w)
    requires b == [] || (!IsSpace(b[0]) && !EndsWithSpace(b))
    requires '\n' !in b
    ensures CompactOpening("[" + w + b) == "[" + SubBracketSpaces(b)
  {
    var v := RemoveNewlines(w);
    OpeningNewlinesRemoved(w, b);
    RemoveNewlinesAllSpace(w);
    var u := "[" + v + b;
    if b == [] {
      assert u == "[" + v;
      RStripBracketRun(v);
      assert SubBracketSpaces("[") == "[";
    } else {
      assert u[|u| - 1] == b[|b| - 1];
      assert RStrip(u) == u;
      SubBracketSpacesOfLeadRun(v, b);
    }
  }

  /** An opening whose first item holds no `[` keeps that item exactly. */
  lemma CompactOpeningOfOpening(w: string, b: string)
    requires AllSpace(w)
    requires b == [] || (!IsSpace(b[0]) && !EndsWithSpace(b))
    requires '\n' !in b && '[' !in b
    ensures CompactOpening("[" + w + b) == "[" + b
  {
    SubBracketSpacesPrefix(b, []);
    assert b + [] == b && SubBracketSpaces([]) == [];
    assert SubBracketSpaces(b) == b;
    CompactOpeningOfItem(w, b);
  }

  /** The bracket substitution does not know about string values: when
      the first item holds one `[` followed by whitespace, as the string
      value `"[ a"` does, that whitespace goes too. With w a newline and two
      spaces, q a quote, x a space and y `a"`, the opening `[`, newline,
      two spaces, `"[ a"` becomes `["[a"`. */
  lemma OpeningAltersItem(w: string, q: string, x: string, y: string)
    requires AllSpace(w) && x != [] && AllSpace(x) && '\n' !in x
    requires q != [] && !IsSpace(q[0]) && '\n' !in q && '[' !in q
    requires y != [] && !IsSpace(y[0]) && !EndsWithSpace(y) && '\n' !in y && '[' !in y
    ensures CompactOpening("[" + w + (q + ("[" + x + y))) == "[" + (q + ("[" + y))
  {
    var u := "[" + x + y;
    var b := q + u;
    assert '\n' !in u by {
      assert forall c :: c in u ==> c == '[' || c in x || c in y;
    }
    assert '\n' !in b;
    assert !EndsWithSpace(b) by {
      assert b[|b| - 1] == y[|y| - 1];
    }
    CompactOpeningOfItem(w, b);
    SubBracketSpacesPrefix(q, u);
    SubBracketSpacesDropsRun(x, y);
    SubBracketSpacesPrefix(y, []);
    assert y + [] == y;
  }

  /** Removing newlines from such an opening only touches the layout run. */
  lemma OpeningNewlinesRemoved(w: string, b: string)
    requires '\n' !in b
    ensures RemoveNewlines("[" + w + b) == "[" + RemoveNewlines(w) + b
  {
    ConcatAssoc("[", w, b);
    RemoveNewlinesCons('[', w + b);
    ConcatAssoc("[", RemoveNewlines(w), b);
    RemoveNewlinesConcat(w, b);
    RemoveNewlinesOfOneLine(b);
  }

  /** The chunk yielded for input chunk `s` when `level` lists are open. */
  function RewriteChunk(level: int, s: string, itemSep: string, keySep: string): (r: string)
    ensures StartsWithBracket(s) ==>
              StartsWithBracket(r) && '\n' !in r && !EndsWithSpace(r)
              && NoSpaceAfterBracket(r) && NonSpace(r) == NonSpace(s)
    ensures !StartsWithBracket(s) && level <= 0 ==> r == s
  {
    if StartsWithBracket(s) then CompactOpening(s)
    else if 0 < level then ReplaceTrailingSeparator(FlattenItem(s), itemSep, keySep)
    else s
  }

  /** The open-list counter after chunk `s` has been processed at `level`:
      up on a chunk that starts with `[`, down on a yielded chunk that ends
      with `]`. */
  function NextLevel(level: int, s: string, itemSep: string, keySep: string): (r: int)
    ensures level - 1 <= r <= level + 1
    ensures !StartsWithBracket(s) && level <= 0 ==> (r == level - 1 <==> EndsWithBracket(s))
  {
    (if StartsWithBracket(s) then level + 1 else level)
    - (if EndsWithBracket(RewriteChunk(level, s, itemSep, keySep)) then 1 else 0)
  }

  /** The counter once all of `chunks` have been processed, starting from 0:
      each chunk moves it by at most one. */
  function LevelAfter(chunks: seq<string>, itemSep: string, keySep: string): (r: int)
    ensures -|chunks| <= r <= |chunks|
  {
    if chunks == [] then 0
    else
      var init := chunks[..|chunks| - 1];
      NextLevel(LevelAfter(init, itemSep, keySep), chunks[|chunks| - 1], itemSep, keySep)
  }

  /** The stream yielded for `chunks`. */
  function Encode(chunks: seq<string>, itemSep: string, keySep: string): (out: seq<string>)
    ensures |out| == |chunks|
  {
    if chunks == [] then []
    else
      var init := chunks[..|chunks| - 1];
      Encode(init, itemSep, keySep)
      + [RewriteChunk(LevelAfter(init, itemSep, keySep), chunks[|chunks| - 1], itemSep, keySep)]
  }

  /** Chunk i of the output is chunk i of the input rewritten at the level
      reached after the chunks before it. */
  lemma EncodeAt(chunks: seq<string>, i: nat, itemSep: string, keySep: string)
    requires i < |chunks|
    ensures Encode(chunks, itemSep, keySep)[i]
            == RewriteChunk(LevelAfter(chunks[..i], itemSep, keySep), chunks[i], itemSep, keySep)
  {
    var upto := chunks[..i + 1];
    EncodePrefix(chunks, i + 1, itemSep, keySep);
    assert upto[..i] == chunks[..i] && upto[i] == chunks[i];
    EncodeLast(upto, itemSep, keySep);
  }

  /** The last output chunk is the last input chunk rewritten at the level
      the others leave. */
  lemma EncodeLast(chunks: seq<string>, itemSep: string, keySep: string)
    requires chunks != []
    ensures Encode(chunks, itemSep, keySep)[|chunks| - 1]
            == RewriteChunk(LevelAfter(chunks[..|chunks| - 1], itemSep, keySep), chunks[|chunks| - 1], itemSep, keySep)
  {
  }

  /** The stream is yielded chunk by chunk: the output for the first n input
      chunks is the first n output chunks. */
  lemma {:induction false} EncodePrefix(chunks: seq<string>, n: nat, itemSep: string, keySep: string)
    requires n <= |chunks|
    ensures Encode(chunks[..n], itemSep, keySep) == Encode(chunks, itemSep, keySep)[..n]
    decreases |chunks|
  {
    if n == |chunks| {
      assert chunks[..n] == chunks;
    } else {
      var init := chunks[..|chunks| - 1];
      var out := Encode(chunks, itemSep, keySep);
      EncodePrefix(init, n, itemSep, keySep);
      PrefixOfPrefix(chunks, |chunks| - 1, n);
      assert init[..n] == chunks[..n];
      EncodeDropLast(chunks, itemSep, keySep);
      assert out[..|chunks| - 1] == Encode(init, itemSep, keySep);
      PrefixOfPrefix(out, |chunks| - 1, n);
      assert Encode(init, itemSep, keySep)[..n] == out[..n];
    }
  }

  /** Without its last chunk, the output is the output for the input
      without its last chunk. */
  lemma EncodeDropLast(chunks: seq<string>, itemSep: string, keySep: string)
    requires chunks != []
    ensures Encode(chunks, itemSep, keySep)[..|chunks| - 1] == Encode(chunks[..|chunks| - 1], itemSep, keySep)
  {
  }

  /** Number of chunks that start with `[`. */
  function Opens(chunks: seq<string>): nat
  {
    if chunks == [] then 0
    else Opens(chunks[..|chunks| - 1]) + (if StartsWithBracket(chunks[|chunks| - 1]) then 1 else 0)
  }

  /** Number of chunks that end with `]`. */
  function Closes(chunks: seq<string>): nat
  {
    if chunks == [] then 0
    else Closes(chunks[..|chunks| - 1]) + (if EndsWithBracket(chunks[|chunks| - 1]) then 1 else 0)
  }

  /** The counter is the number of input chunks that opened a list minus the
      number of yielded chunks that closed one. */
  lemma {:induction false} LevelCountsBrackets(chunks: seq<string>, itemSep: string, keySep: string)
    ensures LevelAfter(chunks, itemSep, keySep)
            == Opens(chunks) - Closes(Encode(chunks, itemSep, keySep))
  {
    if chunks != [] {
      var init := chunks[..|chunks| - 1];
      LevelCountsBrackets(init, itemSep, keySep);
      var out := Encode(chunks, itemSep, keySep);
      assert out[..|out| - 1] == Encode(init, itemSep, keySep);
    }
  }

  /** Inside a list, a chunk that is not itself a list opening keeps its
      content, except that a final `,` or `:` becomes the configured
      separator, written out exactly; its newline-plus-indentation runs and
      its trailing whitespace are gone. */
  lemma InsideListContent(level: int, s: string, itemSep: string, keySep: string)
    requires 0 < level && !StartsWithBracket(s)
    ensures var r := RewriteChunk(level, s, itemSep, keySep);
            var c := NonSpace(s);
            && (c == [] ==> r == [])
            && (c != [] && c[|c| - 1] == ',' ==> NonSpace(r) == c[..|c| - 1] + NonSpace(itemSep))
            && (c != [] && c[|c| - 1] == ':' ==> NonSpace(r) == c[..|c| - 1] + NonSpace(keySep))
            && (c != [] && c[|c| - 1] != ',' && c[|c| - 1] != ':' ==> NonSpace(r) == c && !EndsWithSpace(r))
    ensures var r := RewriteChunk(level, s, itemSep, keySep);
            var t := FlattenItem(s);
            && (t != [] && t[|t| - 1] == ',' ==>
                  |itemSep| <= |r| && r[|r| - |itemSep|..] == itemSep && r[..|r| - |itemSep|] == t[..|t| - 1])
            && (t != [] && t[|t| - 1] == ':' ==>
                  |keySep| <= |r| && r[|r| - |keySep|..] == keySep && r[..|r| - |keySep|] == t[..|t| - 1])
            && (t == [] || (t[|t| - 1] != ',' && t[|t| - 1] != ':') ==> r == t)
  {
    var t := FlattenItem(s);
    var c := NonSpace(s);
    if t == [] {
      assert NonSpace(t) == [];
    } else {
      var n := |t|;
      NonSpaceLast(t);
      assert c[|c| - 1] == t[n - 1];
      assert c[..|c| - 1] == NonSpace(t[..n - 1]);
      NonSpaceConcat(t[..n - 1], itemSep);
      NonSpaceConcat(t[..n - 1], keySep);
    }
  }

  /** A one-line item inside a list, such as a string value with spaces
      in it followed by `,`, keeps every character but the final separator,
      which is replaced by the configured one. */
  lemma InsideListOneLineItem(level: int, s: string, itemSep: string, keySep: string)
    requires 0 < level && !StartsWithBracket(s)
    requires '\n' !in s && s != [] && (s[|s| - 1] == ',' || s[|s| - 1] == ':')
    ensures var r := RewriteChunk(level, s, itemSep, keySep);
            r == s[..|s| - 1] + (if s[|s| - 1] == ',' then itemSep else keySep)
  {
    FlattenItemOfOneLine(s);
    assert RStrip(s) == s;
    var t := FlattenItem(s);
    assert t == s;
    assert RewriteChunk(level, s, itemSep, keySep) == ReplaceTrailingSeparator(t, itemSep, keySep);
  }

  /** With an indentation of 0 the base encoder yields `,` then a newline
      before the next item; inside a list that newline stays. */
  lemma InsideListIndentZero(s: string)
    requires s == ",\n2"
    ensures RewriteChunk(1, s, ",", ": ") == s
  {
    assert s == "," + "\n" + "2";
    FlattenItemKeepsBareNewline(",", "2");
    assert RStrip(s) == s by {
      assert !IsSpace(s[|s| - 1]);
    }
    assert FlattenItem(s) == s;
  }

  /** With separators that carry no newline-plus-indentation and do not
      start with whitespace (the standard `','` and `': '` among them), every
      chunk yielded inside a list is free of newline-plus-indentation runs. */
  lemma InsideListFlat(level: int, s: string, itemSep: string, keySep: string)
    requires 0 < level && !StartsWithBracket(s)
    requires NoNewlineRun(itemSep) && (itemSep == [] || !IsSpace(itemSep[0]))
    requires NoNewlineRun(keySep) && (keySep == [] || !IsSpace(keySep[0]))
    ensures NoNewlineRun(RewriteChunk(level, s, itemSep, keySep))
  {
    var t := FlattenItem(s);
    if t != [] {
      var p := t[..|t| - 1];
      forall i | 0 < i < |p|
        ensures !(p[i - 1] == '\n' && IsSpace(p[i]))
      {
        assert p[i - 1] == t[i - 1] && p[i] == t[i];
      }
      NoNewlineRunConcat(p, itemSep);
      NoNewlineRunConcat(p, keySep);
    }
  }

  /** `NP_MH_Encoder`: a JSON encoder with its configured separators. */
  class Encoder {
    const itemSeparator: string
    const keySeparator: string

    constructor (itemSeparator: string, keySeparator: string)
      ensures this.itemSeparator == itemSeparator && this.keySeparator == keySeparator
    {
      this.itemSeparator := itemSeparator;
      this.keySeparator := keySeparator;
    }

    /** The body of `iterencode`'s loop for one chunk: the chunk is
        rewritten according to the number of open lists, and the counter
        goes up on a chunk that starts with `[` and down on a yielded chunk
        that ends with `]`. */
    method Step(listLevel: int, chunk: string) returns (newLevel: int, s: string)
      ensures s == RewriteChunk(listLevel, chunk, itemSeparator, keySeparator)
      ensures newLevel == NextLevel(listLevel, chunk, itemSeparator, keySeparator)
    {
      newLevel := listLevel;
      s := chunk;
      if StartsWithBracket(s) {
        newLevel := newLevel + 1;
        s := RStrip(RemoveNewlines(s));
        s := SubBracketSpaces(s);
        assert s == CompactOpening(chunk);
      } else if 0 < newLevel {
        s := RStrip(SubNewlineRuns(s));
        ghost var t := s;
        assert t == FlattenItem(chunk);
        if s != [] && s[|s| - 1] == ',' {
          s := s[..|s| - 1] + itemSeparator;
        } else if s != [] && s[|s| - 1] == ':' {
          s := s[..|s| - 1] + keySeparator;
        }
        assert s == ReplaceTrailingSeparator(t, itemSeparator, keySeparator);
      }
      assert s == RewriteChunk(listLevel, chunk, itemSeparator, keySeparator);
      if EndsWithBracket(s) {
        newLevel := newLevel - 1;
      }
    }

    /** `iterencode`: one output chunk per input chunk, in order, each
        rewritten according to how many lists are open before it. */
    method IterEncode(chunks: seq<string>) returns (out: seq<string>)
      ensures out == Encode(chunks, itemSeparator, keySeparator)
      ensures |out| == |chunks|
      ensures forall i :: 0 <= i < |chunks| ==>
                out[i] == RewriteChunk(LevelAfter(chunks[..i], itemSeparator, keySeparator),
                                       chunks[i], itemSeparator, keySeparator)
    {
      var listLevel := 0;
      out := [];
      var i := 0;
      while i < |chunks|
        invariant 0 <= i <= |chunks|
        invariant out == Encode(chunks[..i], itemSeparator, keySeparator)
        invariant listLevel == LevelAfter(chunks[..i], itemSeparator, keySeparator)
      {
        ghost var before := listLevel;
        var s;
        listLevel, s := Step(listLevel, chunks[i]);
        ghost var done := chunks[..i + 1];
        assert done[..|done| - 1] == chunks[..i] && done[|done| - 1] == chunks[i];
        assert Encode(done, itemSeparator, keySeparator)
               == Encode(chunks[..i], itemSeparator, keySeparator) + [s];
        assert LevelAfter(done, itemSeparator, keySeparator)
               == NextLevel(before, chunks[i], itemSeparator, keySeparator);
        out := out + [s];
        i := i + 1;
      }
      assert chunks[..|chunks|] == chunks;
      forall j | 0 <= j < |chunks|
        ensures out[j] == RewriteChunk(LevelAfter(chunks[..j], itemSeparator, keySeparator),
                                       chunks[j], itemSeparator, keySeparator)
      {
        EncodeAt(chunks, j, itemSeparator, keySeparator);
      }
    }
  }
}

=== FILE: py_text.dfy ===
/** The Python string operations the JSON chunk post-processor relies on:
    the whitespace class, removing every newline, stripping trailing
    whitespace, and the two regular-expression substitutions (a newline
    followed by whitespace is deleted; whitespace after `[` is deleted),
    written out as string functions. */
module PyText {

  /** Python 3's `str.isspace` for one character, which is also the class
      that `\s` matches in a `str` pattern and what `rstrip()` strips. The
      usual layout characters are in it; no printable ASCII character is. */
  predicate IsSpace(c: char)
    ensures c == ' ' || c == '\t' || c == '\n' || c == '\r' ==> IsSpace(c)
    ensures '!' <= c <= '~' ==> !IsSpace(c)
  {
    var n := c as int;
    (9 <= n <= 13) || (28 <= n <= 32) || n == 0x85 || n == 0xA0 || n == 0x1680
    || (0x2000 <= n <= 0x200A) || n == 0x2028 || n == 0x2029 || n == 0x202F
    || n == 0x205F || n == 0x3000
  }

  predicate StartsWithBracket(s: string) { |s| > 0 && s[0] == '[' }

  predicate EndsWithBracket(s: string) { |s| > 0 && s[|s| - 1] == ']' }

  predicate EndsWithSpace(s: string) { |s| > 0 && IsSpace(s[|s| - 1]) }

  /** The characters of `s` that are not whitespace, in order: what a JSON
      reader sees once layout is ignored. */
  function NonSpace(s: string): string
  {
    if s == [] then [] else (if IsSpace(s[0]) then [] else [s[0]]) + NonSpace(s[1..])
  }

  /** Every character of `w` is whitespace. */
  predicate AllSpace(w: string)
  {
    forall i :: 0 <= i < |w| ==> IsSpace(w[i])
  }

  /** No newline is directly followed by whitespace: no indentation is left. */
  predicate NoNewlineRun(s: string)
  {
    forall i :: 0 < i < |s| ==> !(s[i - 1] == '\n' && IsSpace(s[i]))
  }

  /** No `[` is directly followed by whitespace. */
  predicate NoSpaceAfterBracket(s: string)
  {
    forall i :: 0 < i < |s| ==> !(s[i - 1] == '[' && IsSpace(s[i]))
  }

  /** Splitting off the first element of the left operand of `+`. */
  lemma SplitHead<T>(a: seq<T>, x: seq<T>)
    requires a != []
    ensures a + x == [a[0]] + (a[1..] + x)
  {
  }

  lemma ConcatAssoc<T>(a: seq<T>, b: seq<T>, c: seq<T>)
    ensures a + b + c == a + (b + c)
  {
  }

  lemma PrefixOfPrefix<T>(s: seq<T>, m: nat, n: nat)
    requires n <= m <= |s|
    ensures s[..m][..n] == s[..n]
  {
  }

  lemma {:induction false} NonSpaceConcat(a: string, b: string)
    ensures NonSpace(a + b) == NonSpace(a) + NonSpace(b)
    decreases |a|
  {
    if a == [] {
      assert a + b == b;
    } else {
      var c, t := a[0], a[1..];
      SplitHead(a, b);
      assert a == [c] + t;
      NonSpaceConcat(t, b);
      NonSpaceCons(c, t + b);
      NonSpaceCons(c, t);
      ConcatAssoc(if IsSpace(c) then [] else [c], NonSpace(t), NonSpace(b));
    }
  }

  lemma NonSpaceCons(c: char, s: string)
    ensures NonSpace([c] + s) == (if IsSpace(c) then [] else [c]) + NonSpace(s)
  {
    assert ([c] + s)[0] == c;
    assert ([c] + s)[1..] == s;
  }

  /** A string made only of whitespace carries no content. */
  lemma {:induction false} NonSpaceOfSpaces(s: string)
    requires AllSpace(s)
    ensures NonSpace(s) == []
  {
    if s != [] {
      NonSpaceOfSpaces(s[1..]);
    }
  }

  /** The last character of a string that does not end in whitespace is the
      last character of its content. */
  lemma NonSpaceLast(t: string)
    requires t != [] && !IsSpace(t[|t| - 1])
    ensures NonSpace(t) == NonSpace(t[..|t| - 1]) + [t[|t| - 1]]
  {
    assert t == t[..|t| - 1] + [t[|t| - 1]];
    NonSpaceConcat(t[..|t| - 1], [t[|t| - 1]]);
    NonSpaceCons(t[|t| - 1], []);
  }

  /** Joining two strings creates no newline-plus-indentation run when the
      second does not start with whitespace. */
  lemma NoNewlineRunConcat(a: string, b: string)
    requires NoNewlineRun(a) && NoNewlineRun(b)
    requires b == [] || !IsSpace(b[0])
    ensures NoNewlineRun(a + b)
  {
    var s := a + b;
    forall i | 0 < i < |s|
      ensures !(s[i - 1] == '\n' && IsSpace(s[i]))
    {
      if i < |a| {
        assert s[i - 1] == a[i - 1] && s[i] == a[i];
      } else if i == |a| {
        assert s[i] == b[0];
      } else {
        assert s[i - 1] == b[i - 1 - |a|] && s[i] == b[i - |a|];
      }
    }
  }

  /** Drops the maximal run of leading whitespace (what the greedy `\s+`
      consumes). */
  function DropLeadingSpace(s: string): (r: string)
    ensures |r| <= |s| && r == s[|s| - |r|..]
    ensures r == [] || !IsSpace(r[0])
    ensures forall i :: 0 <= i < |s| - |r| ==> IsSpace(s[i])
    ensures NonSpace(r) == NonSpace(s)
  {
    if s != [] && IsSpace(s[0]) then DropLeadingSpace(s[1..]) else s
  }

  /** Every newline removed, everything else kept in order. */
  function RemoveNewlines(s: string): (r: string)
    ensures '\n' !in r
    ensures forall c {:trigger multiset(r)[c]} :: c != '\n' ==> multiset(r)[c] == multiset(s)[c]
    ensures NonSpace(r) == NonSpace(s)
    ensures s != [] && s[0] != '\n' ==> r != [] && r[0] == s[0]
  {
    if s == [] then []
    else
      var rest := RemoveNewlines(s[1..]);
      assert s == [s[0]] + s[1..];
      NonSpaceCons(s[0], s[1..]);
      if s[0] == '\n' then rest
      else
        NonSpaceCons(s[0], rest);
        [s[0]] + rest
  }

  /** Removing newlines works piece by piece: together with the case of a
      string without newlines, this fixes the result and the order of every
      kept character. */
  lemma {:induction false} RemoveNewlinesConcat(a: string, b: string)
    ensures RemoveNewlines(a + b) == RemoveNewlines(a) + RemoveNewlines(b)
    decreases |a|
  {
    if a == [] {
      assert a + b == b;
    } else {
      var c, t := a[0], a[1..];
      SplitHead(a, b);
      assert a == [c] + t;
      RemoveNewlinesConcat(t, b);
      RemoveNewlinesCons(c, t + b);
      RemoveNewlinesCons(c, t);
      if c != '\n' {
        ConcatAssoc([c], RemoveNewlines(t), RemoveNewlines(b));
      }
    }
  }

  /** A newline is dropped, any other character is kept in front of the
      rest. */
  lemma RemoveNewlinesCons(c: char, t: string)
    ensures RemoveNewlines([c] + t) == (if c == '\n' then [] else [c]) + RemoveNewlines(t)
  {
    assert ([c] + t)[1..] == t;
  }

  /** A string without newlines is left as it is. */
  lemma {:induction false} RemoveNewlinesOfOneLine(s: string)
    requires '\n' !in s
    ensures RemoveNewlines(s) == s
    decreases |s|
  {
    if s != [] {
      assert '\n' !in s[1..];
      RemoveNewlinesOfOneLine(s[1..]);
      assert s == [s[0]] + s[1..];
    }
  }

  /** Whitespace stays whitespace once its newlines are removed. */
  lemma {:induction false} RemoveNewlinesAllSpace(w: string)
    requires AllSpace(w)
    ensures AllSpace(RemoveNewlines(w))
    decreases |w|
  {
    if w != [] {
      assert AllSpace(w[1..]) by {
        forall i | 0 <= i < |w[1..]| ensures IsSpace(w[1..][i]) {
          assert w[1..][i] == w[i + 1];
        }
      }
      RemoveNewlinesAllSpace(w[1..]);
    }
  }

  /** Python's `rstrip` with no argument: the longest prefix of `s` that
      does not end in whitespace, all of whose cut-off characters are
      whitespace. */
  function RStrip(s: string): (r: string)
    ensures |r| <= |s| && r == s[..|r|]
    ensures !EndsWithSpace(r)
    ensures forall i :: |r| <= i < |s| ==> IsSpace(s[i])
  {
    if s != [] && IsSpace(s[|s| - 1]) then RStrip(s[..|s| - 1]) else s
  }

  /** `[` followed only by whitespace strips down to `[`. */
  lemma {:induction false} RStripBracketRun(w: string)
    requires AllSpace(w)
    ensures RStrip("[" + w) == "["
    decreases |w|
  {
    if w != [] {
      var x := "[" + w;
      assert x[|x| - 1] == w[|w| - 1];
      assert x[..|x| - 1] == "[" + w[..|w| - 1];
      var v := w[..|w| - 1];
      assert AllSpace(v) by {
        forall i | 0 <= i < |v| ensures IsSpace(v[i]) {
          assert v[i] == w[i];
        }
      }
      RStripBracketRun(v);
    }
  }

  /** Stripping trailing whitespace keeps the content. */
  lemma RStripKeepsContent(s: string)
    ensures NonSpace(RStrip(s)) == NonSpace(s)
  {
    var r := RStrip(s);
    assert s == r + s[|r|..];
    NonSpaceOfSpaces(s[|r|..]);
    NonSpaceConcat(r, s[|r|..]);
  }

  /** Stripping trailing whitespace cannot create a newline run. */
  lemma RStripKeepsNoNewlineRun(s: string)
    requires NoNewlineRun(s)
    ensures NoNewlineRun(RStrip(s))
  {
    var r := RStrip(s);
    forall i | 0 < i < |r|
      ensures !(r[i - 1] == '\n' && IsSpace(r[i]))
    {
      assert r[i - 1] == s[i - 1] && r[i] == s[i];
    }
  }

  /** The substitution of the pattern newline-then-whitespace-run by
      nothing: scanning left to right, a newline followed
      by at least one whitespace character is deleted together with the whole
      whitespace run after it (newlines included, `\s+` being greedy). */
  function SubNewlineRuns(s: string): (r: string)
    ensures |r| <= |s|
    ensures NoNewlineRun(r)
    ensures NonSpace(r) == NonSpace(s)
    ensures s != [] && !IsSpace(s[0]) ==> r != [] && r[0] == s[0]
    ensures NoNewlineRun(s) ==> r == s
    decreases |s|
  {
    if |s| >= 2 && s[0] == '\n' && IsSpace(s[1]) then
      assert s == [s[0]] + s[1..];
      NonSpaceCons(s[0], s[1..]);
      SubNewlineRuns(DropLeadingSpace(s[1..]))
    else if s == [] then []
    else
      var rest := SubNewlineRuns(s[1..]);
      assert s == [s[0]] + s[1..];
      NonSpaceCons(s[0], s[1..]);
      NonSpaceCons(s[0], rest);
      assert NoNewlineRun(s) ==> NoNewlineRun(s[1..]) by {
        if NoNewlineRun(s) {
          forall i | 0 < i < |s[1..]|
            ensures !(s[1..][i - 1] == '\n' && IsSpace(s[1..][i]))
          {
            assert s[1..][i - 1] == s[i] && s[1..][i] == s[i + 1];
          }
        }
      }
      ConsNoNewlineRun(s[0], rest);
      [s[0]] + rest
  }

  /** A whitespace run followed by a non-whitespace character (or nothing)
      is exactly what `DropLeadingSpace` removes. */
  lemma {:induction false} DropLeadingSpaceOfRun(w: string, b: string)
    requires AllSpace(w) && (b == [] || !IsSpace(b[0]))
    ensures DropLeadingSpace(w + b) == b
    decreases |w|
  {
    if w == [] {
      assert w + b == b;
    } else {
      assert (w + b)[0] == w[0];
      assert (w + b)[1..] == w[1..] + b;
      assert AllSpace(w[1..]) by {
        forall i | 0 <= i < |w[1..]| ensures IsSpace(w[1..][i]) {
          assert w[1..][i] == w[i + 1];
        }
      }
      DropLeadingSpaceOfRun(w[1..], b);
    }
  }

  /** A character other than a newline is kept in front of the rest. */
  lemma SubNewlineRunsCons(c: char, t: string)
    requires c != '\n'
    ensures SubNewlineRuns([c] + t) == [c] + SubNewlineRuns(t)
  {
    assert ([c] + t)[1..] == t;
  }

  /** Text before the first newline is left as it is, whitespace included. */
  lemma {:induction false} SubNewlineRunsPrefix(a: string, b: string)
    requires '\n' !in a
    ensures SubNewlineRuns(a + b) == a + SubNewlineRuns(b)
    decreases |a|
  {
    if a == [] {
      assert a + b == b;
    } else {
      var c, t := a[0], a[1..];
      assert '\n' !in t;
      SplitHead(a, b);
      SplitHead(a, SubNewlineRuns(b));
      SubNewlineRunsPrefix(t, b);
      SubNewlineRunsCons(c, t + b);
    }
  }

  /** A newline with the whole whitespace run after it is deleted, and
      nothing else. */
  lemma SubNewlineRunsDropsRun(w: string, b: string)
    requires w != [] && AllSpace(w) && (b == [] || !IsSpace(b[0]))
    ensures SubNewlineRuns("\n" + w + b) == SubNewlineRuns(b)
  {
    assert "\n" + w + b == "\n" + (w + b);
    assert (w + b)[0] == w[0];
    SubNewlineRunsRunStep(w + b);
    DropLeadingSpaceOfRun(w, b);
  }

  /** One step of the newline substitution on a newline and a whitespace
      run. */
  lemma SubNewlineRunsRunStep(t: string)
    requires t != [] && IsSpace(t[0])
    ensures SubNewlineRuns("\n" + t) == SubNewlineRuns(DropLeadingSpace(t))
  {
    var s := "\n" + t;
    assert s[0] == '\n' && s[1] == t[0] && s[1..] == t;
  }

  /** A newline not followed by whitespace is kept. */
  lemma SubNewlineRunsKeepsNewline(b: string)
    requires b == [] || !IsSpace(b[0])
    ensures SubNewlineRuns("\n" + b) == "\n" + SubNewlineRuns(b)
  {
    var s := "\n" + b;
    assert s[1..] == b;
  }

  /** The substitution of the pattern bracket-then-whitespace-run by a
      bare bracket: every `[` followed by whitespace loses the
      whole whitespace run after it. */
  function SubBracketSpaces(s: string): (r: string)
    ensures |r| <= |s|
    ensures NoSpaceAfterBracket(r)
    ensures NonSpace(r) == NonSpace(s)
    ensures s != [] && !IsSpace(s[0]) ==> r != [] && r[0] == s[0]
    decreases |s|
  {
    if s == [] then []
    else
      var t := s[1..];
      assert s == [s[0]] + t;
      if |s| >= 2 && s[0] == '[' && IsSpace(s[1]) then
        var rest := SubBracketSpaces(DropLeadingSpace(t));
        ConsBracketFacts('[', t, rest);
        "[" + rest
      else
        var rest := SubBracketSpaces(t);
        ConsBracketFacts(s[0], t, rest);
        [s[0]] + rest
  }

  /** The substitution only deletes whitespace, so a string that does not end
      in whitespace keeps its last character. */
  lemma {:induction false} SubBracketSpacesKeepsEnd(s: string)
    requires s != [] && !IsSpace(s[|s| - 1])
    ensures var r := SubBracketSpaces(s); r != [] && r[|r| - 1] == s[|s| - 1]
    decreases |s|
  {
    if |s| >= 2 && s[0] == '[' && IsSpace(s[1]) {
      var d := DropLeadingSpace(s[1..]);
      assert d != [] && d[|d| - 1] == s[|s| - 1] by {
        assert s[1..][|s[1..]| - 1] == s[|s| - 1];
      }
      SubBracketSpacesKeepsEnd(d);
    } else if |s| > 1 {
      assert s[1..][|s[1..]| - 1] == s[|s| - 1];
      SubBracketSpacesKeepsEnd(s[1..]);
    }
  }

  /** The substitution only deletes characters, so it introduces no newline. */
  lemma {:induction false} SubBracketSpacesNoNewline(s: string)
    requires '\n' !in s
    ensures '\n' !in SubBracketSpaces(s)
    decreases |s|
  {
    if |s| >= 2 && s[0] == '[' && IsSpace(s[1]) {
      var d := DropLeadingSpace(s[1..]);
      assert forall c :: c in d ==> c in s[1..];
      SubBracketSpacesNoNewline(d);
    } else if s != [] {
      SubBracketSpacesNoNewline(s[1..]);
    }
  }

  /** A string with no `[` followed by whitespace is left as it is, so the
      substitution is idempotent. */
  lemma {:induction false} SubBracketSpacesFixedPoint(s: string)
    requires NoSpaceAfterBracket(s)
    ensures SubBracketSpaces(s) == s
    decreases |s|
  {
    if s != [] {
      assert !(|s| >= 2 && s[0] == '[' && IsSpace(s[1]));
      forall i | 0 < i < |s[1..]|
        ensures !(s[1..][i - 1] == '[' && IsSpace(s[1..][i]))
      {
        assert s[1..][i - 1] == s[i] && s[1..][i] == s[i + 1];
      }
      SubBracketSpacesFixedPoint(s[1..]);
      assert s == [s[0]] + s[1..];
    }
  }

  /** A character other than `[` is kept in front of the rest. */
  lemma SubBracketSpacesCons(c: char, t: string)
    requires c != '['
    ensures SubBracketSpaces([c] + t) == [c] + SubBracketSpaces(t)
  {
    assert ([c] + t)[1..] == t;
  }

  /** Text before the first `[` is left as it is, whitespace included. */
  lemma {:induction false} SubBracketSpacesPrefix(a: string, b: string)
    requires '[' !in a
    ensures SubBracketSpaces(a + b) == a + SubBracketSpaces(b)
    decreases |a|
  {
    if a == [] {
      assert a + b == b;
    } else {
      var c, t := a[0], a[1..];
      assert '[' !in t;
      SplitHead(a, b);
      SplitHead(a, SubBracketSpaces(b));
      SubBracketSpacesPrefix(t, b);
      SubBracketSpacesCons(c, t + b);
    }
  }

  /** A `[` loses the whole whitespace run after it, and nothing else. */
  lemma SubBracketSpacesDropsRun(w: string, b: string)
    requires w != [] && AllSpace(w) && (b == [] || !IsSpace(b[0]))
    ensures SubBracketSpaces("[" + w + b) == "[" + SubBracketSpaces(b)
  {
    assert "[" + w + b == "[" + (w + b);
    assert (w + b)[0] == w[0];
    SubBracketSpacesRunStep(w + b);
    DropLeadingSpaceOfRun(w, b);
  }

  /** One step of the bracket substitution on `[` and a whitespace run. */
  lemma SubBracketSpacesRunStep(t: string)
    requires t != [] && IsSpace(t[0])
    ensures SubBracketSpaces("[" + t) == "[" + SubBracketSpaces(DropLeadingSpace(t))
  {
    var s := "[" + t;
    assert s[0] == '[' && s[1] == t[0] && s[1..] == t;
  }

  /** A `[` not followed by whitespace is kept with what follows it. */
  lemma SubBracketSpacesKeepsBracket(b: string)
    requires b == [] || !IsSpace(b[0])
    ensures SubBracketSpaces("[" + b) == "[" + SubBracketSpaces(b)
  {
    var s := "[" + b;
    assert s[1..] == b;
  }

  /** `[`, a whitespace run (possibly empty), then text that does not start
      with whitespace: the run goes and the text is substituted in turn. */
  lemma SubBracketSpacesOfLeadRun(w: string, b: string)
    requires AllSpace(w) && (b == [] || !IsSpace(b[0]))
    ensures SubBracketSpaces("[" + w + b) == "[" + SubBracketSpaces(b)
  {
    if w == [] {
      assert "[" + w + b == "[" + b;
      SubBracketSpacesKeepsBracket(b);
    } else {
      SubBracketSpacesDropsRun(w, b);
    }
  }

  /** The same when the text holds no `[`: only the run goes. */
  lemma SubBracketSpacesOfOpening(w: string, b: string)
    requires AllSpace(w) && (b == [] || !IsSpace(b[0])) && '[' !in b
    ensures SubBracketSpaces("[" + w + b) == "[" + b
  {
    SubBracketSpacesOfLeadRun(w, b);
    SubBracketSpacesPrefix(b, []);
    assert b + [] == b;
  }

  /** What both cases of the bracket substitution need about its result
      `[c] + rest`, given the same facts about `rest` against `t`. */
  lemma ConsBracketFacts(c: char, t: string, rest: string)
    requires NonSpace(rest) == NonSpace(t) && NoSpaceAfterBracket(rest)
    requires c == '[' ==> rest == [] || !IsSpace(rest[0])
    ensures NonSpace([c] + rest) == NonSpace([c] + t)
    ensures NoSpaceAfterBracket([c] + rest)
  {
    NonSpaceCons(c, rest);
    NonSpaceCons(c, t);
    ConsNoSpaceAfterBracket(c, rest);
  }

  lemma ConsNoNewlineRun(c: char, rest: string)
    requires NoNewlineRun(rest)
    requires c == '\n' ==> rest == [] || !IsSpace(rest[0])
    ensures NoNewlineRun([c] + rest)
  {
    var s := [c] + rest;
    forall i | 0 < i < |s|
      ensures !(s[i - 1] == '\n' && IsSpace(s[i]))
    {
      if i > 1 {
        assert s[i - 1] == rest[i - 2] && s[i] == rest[i - 1];
      }
    }
  }

  lemma ConsNoSpaceAfterBracket(c: char, rest: string)
    requires NoSpaceAfterBracket(rest)
    requires c == '[' ==> rest == [] || !IsSpace(rest[0])
    ensures NoSpaceAfterBracket([c] + rest)
  {
    var s := [c] + rest;
    forall i | 0 < i < |s|
      ensures !(s[i - 1] == '[' && IsSpace(s[i]))
    {
      if i > 1 {
        assert s[i - 1] == rest[i - 2] && s[i] == rest[i - 1];
      }
    }
  }
}

=== FILE: skeleton.dfy ===
/** `parse_skeleton_bones` (scripts/export_makehuman.py:175-222): a host
    skeleton bone has a head, offset from its parent's tail, and a tail,
    offset from its own head; the target engine's bones have only one
    offset each, so every bone is split into a `<name>____head` record and a
    `<name>` record. */
module Skeleton {

  datatype Option<T> = None | Some(value: T)

  /** A position or offset vector; coordinates are exact reals. */
  datatype Vec3 = Vec3(x: real, y: real, z: real)
  {
    function Sub(other: Vec3): Vec3 { Vec3(x - other.x, y - other.y, z - other.z) }
    function Add(other: Vec3): Vec3 { Vec3(x + other.x, y + other.y, z + other.z) }
  }

  const Zero := Vec3(0.0, 0.0, 0.0)

  /** A bone of the host skeleton, in the order `getBones()` lists them.
      `parent` is the parent bone's `index`, its position in that list. */
  datatype Bone = Bone(name: string, parent: Option<nat>, headPos: Vec3, tailPos: Vec3)

  /** One output bone: `{name, pos, rotq, scl, parent}`, with `parent` the
      index of the parent record in the output list or -1. */
  datatype BoneDef = BoneDef(name: string, pos: Vec3, rotq: seq<int>, scl: seq<int>, parent: int)

  const HeadSuffix: string := "____head"
  const IdentityRotation: seq<int> := [0, 0, 0, 1]
  const UnitScale: seq<int> := [1, 1, 1]

  /** Every parent is a bone of the same skeleton. */
  predicate ValidSkeleton(skel: seq<Bone>)
  {
    forall i :: 0 <= i < |skel| && skel[i].parent.Some? ==> skel[i].parent.value < |skel|
  }

  /** Every parent is listed before its children. */
  predicate ParentsFirst(skel: seq<Bone>)
  {
    forall i :: 0 <= i < |skel| && skel[i].parent.Some? ==> skel[i].parent.value < i
  }

  /** The record emitted first for bone i: named after the bone with the
      head suffix, placed at the head's offset from the parent's tail, and
      attached to the parent's tail record. */
  function HeadRecord(skel: seq<Bone>, i: nat): (r: BoneDef)
    requires ValidSkeleton(skel) && i < |skel|
    ensures r.name == skel[i].name + HeadSuffix
    ensures r.parent == -1 <==> skel[i].parent.None?
    ensures skel[i].parent.Some? ==>
              var p := skel[i].parent.value;
              r.parent == 2 * p + 1 && r.pos.Add(skel[p].tailPos) == skel[i].headPos
  {
    var bone := skel[i];
    match bone.parent
    case None => BoneDef(bone.name + HeadSuffix, Zero, IdentityRotation, UnitScale, -1)
    case Some(p) =>
      BoneDef(bone.name + HeadSuffix, bone.headPos.Sub(skel[p].tailPos), IdentityRotation, UnitScale, 2 * p + 1)
  }

  /** The record emitted second for bone i: the bone's own name, the tail's
      offset from the head, attached to the head record just emitted. */
  function TailRecord(skel: seq<Bone>, i: nat): (r: BoneDef)
    requires i < |skel|
    ensures r.name == skel[i].name && r.parent == 2 * i
    ensures r.pos.Add(skel[i].headPos) == skel[i].tailPos
  {
    var bone := skel[i];
    BoneDef(bone.name, bone.tailPos.Sub(bone.headPos), IdentityRotation, UnitScale, 2 * i)
  }

  /** The records emitted for the first n bones. */
  function SplitPrefix(skel: seq<Bone>, n: nat): (r: seq<BoneDef>)
    requires ValidSkeleton(skel) && n <= |skel|
    ensures |r| == 2 * n
    ensures forall i :: 0 <= i < n ==> r[2 * i] == HeadRecord(skel, i) && r[2 * i + 1] == TailRecord(skel, i)
  {
    if n == 0 then []
    else SplitPrefix(skel, n - 1) + [HeadRecord(skel, n - 1), TailRecord(skel, n - 1)]
  }

  function SplitBones(skel: seq<Bone>): seq<BoneDef>
    requires ValidSkeleton(skel)
  {
    SplitPrefix(skel, |skel|)
  }

  /** `parse_skeleton_bones`: two records per bone, appended in bone order;
      the tail's parent is read off the length of the list built so far. */
  method ParseSkeletonBones(skeleton: seq<Bone>) returns (bones: seq<BoneDef>)
    requires ValidSkeleton(skeleton)
    ensures bones == SplitBones(skeleton)
    ensures |bones| == 2 * |skeleton|
    ensures forall i :: 0 <= i < |skeleton| ==>
              bones[2 * i] == HeadRecord(skeleton, i) && bones[2 * i + 1] == TailRecord(skeleton, i)
  {
    bones := [];
    for i := 0 to |skeleton|
      invariant bones == SplitPrefix(skeleton, i)
    {
      var bone := skeleton[i];
      var head: BoneDef;
      if bone.parent.Some? {
        head := BoneDef(bone.name + HeadSuffix, bone.headPos.Sub(skeleton[bone.parent.value].tailPos),
                        IdentityRotation, UnitScale, bone.parent.value * 2 + 1);
      } else {
        head := BoneDef(bone.name + HeadSuffix, Zero, IdentityRotation, UnitScale, -1);
      }
      bones := bones + [head];
      var tail := BoneDef(bone.name, bone.tailPos.Sub(bone.headPos), IdentityRotation, UnitScale, |bones| - 1);
      bones := bones + [tail];
    }
  }

  /** The head record of bone i: its name, fixed rotation and scale, and its
      parent, which is -1 for a root and otherwise the record of the parent
      bone's tail, carrying the parent's own name. */
  lemma HeadRecordLinks(skel: seq<Bone>, i: nat)
    requires ValidSkeleton(skel) && i < |skel|
    ensures var bones := SplitBones(skel); var h := bones[2 * i];
            && h.name == skel[i].name + HeadSuffix
            && h.rotq == IdentityRotation && h.scl == UnitScale
            && (skel[i].parent.None? ==> h.parent == -1 && h.pos == Zero)
            && (skel[i].parent.Some? ==>
                  var p := skel[i].parent.value;
                  && h.parent == 2 * p + 1 < |bones|
                  && bones[h.parent].name == skel[p].name
                  && h.pos == skel[i].headPos.Sub(skel[p].tailPos))
  {
    var bones := SplitBones(skel);
    assert bones[2 * i] == HeadRecord(skel, i);
    if skel[i].parent.Some? {
      var p := skel[i].parent.value;
      assert bones[2 * p + 1] == TailRecord(skel, p);
    }
  }

  /** The tail record of bone i: the bone's own name, the tail's offset from
      the head, and as parent its own head record, just before it. */
  lemma TailRecordLinks(skel: seq<Bone>, i: nat)
    requires ValidSkeleton(skel) && i < |skel|
    ensures var bones := SplitBones(skel); var t := bones[2 * i + 1];
            && t.name == skel[i].name
            && t.rotq == IdentityRotation && t.scl == UnitScale
            && t.pos == skel[i].tailPos.Sub(skel[i].headPos)
            && t.parent == 2 * i
            && bones[t.parent].name == skel[i].name + HeadSuffix
  {
    var bones := SplitBones(skel);
    assert bones[2 * i + 1] == TailRecord(skel, i);
    assert bones[2 * i] == HeadRecord(skel, i);
  }

  /** Every record's parent is -1 or an earlier record. */
  predicate ParentsBefore(bones: seq<BoneDef>)
  {
    forall r :: 0 <= r < |bones| ==> -1 <= bones[r].parent < r
  }

  /** The output lists parents before children exactly when the skeleton
      does. */
  lemma SplitParentsBefore(skel: seq<Bone>)
    requires ValidSkeleton(skel)
    ensures ParentsBefore(SplitBones(skel)) <==> ParentsFirst(skel)
  {
    var bones := SplitBones(skel);
    if ParentsFirst(skel) {
      forall r | 0 <= r < |bones|
        ensures -1 <= bones[r].parent < r
      {
        var i := r / 2;
        if r % 2 == 0 {
          assert r == 2 * i && bones[r] == HeadRecord(skel, i);
        } else {
          assert r == 2 * i + 1 && bones[r] == TailRecord(skel, i);
        }
      }
    }
    if ParentsBefore(bones) {
      forall i | 0 <= i < |skel| && skel[i].parent.Some?
        ensures skel[i].parent.value < i
      {
        assert bones[2 * i] == HeadRecord(skel, i);
        assert bones[2 * i].parent < 2 * i;
      }
    }
  }

  /** The position a record ends up at once the offsets along its chain of
      parent records are added up (rotations and scales being the
      identity). */
  function Accumulate(bones: seq<BoneDef>, r: nat): Vec3
    requires ParentsBefore(bones) && r < |bones|
    decreases r
  {
    var d := bones[r];
    if d.parent < 0 then d.pos else d.pos.Add(Accumulate(bones, d.parent))
  }

  /** The root bone of bone i's chain of parents. */
  function Root(skel: seq<Bone>, i: nat): (root: nat)
    requires ParentsFirst(skel) && i < |skel|
    ensures root < |skel| && skel[root].parent.None?
    decreases i
  {
    match skel[i].parent
    case None => i
    case Some(p) => Root(skel, p)
  }

  /** Splitting puts every head and tail where the host skeleton has it,
      measured from the head of the bone's root. */
  lemma {:induction false} SplitKeepsPositions(skel: seq<Bone>, i: nat)
    requires ParentsFirst(skel) && i < |skel|
    ensures ValidSkeleton(skel) && ParentsBefore(SplitBones(skel))
    ensures var bones := SplitBones(skel); var origin := skel[Root(skel, i)].headPos;
            && Accumulate(bones, 2 * i) == skel[i].headPos.Sub(origin)
            && Accumulate(bones, 2 * i + 1) == skel[i].tailPos.Sub(origin)
    decreases i
  {
    SplitParentsBefore(skel);
    var bones := SplitBones(skel);
    assert bones[2 * i] == HeadRecord(skel, i);
    assert bones[2 * i + 1] == TailRecord(skel, i);
    var head := Accumulate(bones, 2 * i);
    assert Accumulate(bones, 2 * i + 1) == skel[i].tailPos.Sub(skel[i].headPos).Add(head);
    match skel[i].parent
    case None =>
      assert head == Zero;
    case Some(p) =>
      SplitKeepsPositions(skel, p);
      assert head == skel[i].headPos.Sub(skel[p].tailPos).Add(Accumulate(bones, 2 * p + 1));
  }

  /** A bone's name and its parent's index, the shape of the skeleton. */
  datatype Link = Link(name: string, parent: Option<nat>)

  function Topology(skel: seq<Bone>): seq<Link>
  {
    seq(|skel|, i requires 0 <= i < |skel| => Link(skel[i].name, skel[i].parent))
  }

  /** Reads the skeleton's shape back out of an output list: each tail
      record's name, and the bone whose tail the head record hangs from. */
  function RecoverTopology(bones: seq<BoneDef>): seq<Link>
  {
    seq(|bones| / 2, i requires 0 <= i < |bones| / 2 =>
      var h := bones[2 * i];
      Link(bones[2 * i + 1].name, if h.parent <= 0 then None else Some((h.parent - 1) / 2)))
  }

  /** Splitting loses nothing of the skeleton's shape. */
  lemma RecoverTopologyOfSplit(skel: seq<Bone>)
    requires ValidSkeleton(skel)
    ensures RecoverTopology(SplitBones(skel)) == Topology(skel)
  {
    var bones := SplitBones(skel);
    var rec := RecoverTopology(bones);
    assert |rec| == |skel|;
    forall i | 0 <= i < |skel|
      ensures rec[i] == Topology(skel)[i]
    {
      assert bones[2 * i] == HeadRecord(skel, i);
      assert bones[2 * i + 1] == TailRecord(skel, i);
    }
  }

  /** Distinct bone names, none of which is another's name with the head
      suffix, give distinct record names. */
  lemma SplitNamesDistinct(skel: seq<Bone>)
    requires ValidSkeleton(skel)
    requires forall i, j :: 0 <= i < j < |skel| ==> skel[i].name != skel[j].name
    requires forall i, j :: 0 <= i < |skel| && 0 <= j < |skel| ==> skel[i].name != skel[j].name + HeadSuffix
    ensures var bones := SplitBones(skel);
            forall a, b :: 0 <= a < b < |bones| ==> bones[a].name != bones[b].name
  {
    var bones := SplitBones(skel);
    forall a, b | 0 <= a < b < |bones|
      ensures bones[a].name != bones[b].name
    {
      var i, j := a / 2, b / 2;
      assert bones[2 * i] == HeadRecord(skel, i) && bones[2 * i + 1] == TailRecord(skel, i);
      assert bones[2 * j] == HeadRecord(skel, j) && bones[2 * j + 1] == TailRecord(skel, j);
      if a % 2 == 0 && b % 2 == 0 {
        assert i < j;
        SuffixInjective(skel[i].name, skel[j].name, HeadSuffix);
      } else if a % 2 == 1 && b % 2 == 1 {
        assert i < j;
      }
    }
  }

  lemma SuffixInjective(x: string, y: string, suffix: string)
    ensures x != y ==> x + suffix != y + suffix
  {
    if x + suffix == y + suffix {
      assert x == (x + suffix)[..|x|];
      assert y == (y + suffix)[..|y|];
    }
  }
}

=== FILE: skin_weights.dfy ===
/** The index/weight split of `vertex_weights_to_skin_weights`
    (scripts/export_makehuman.py:149-173). The compiled table has one row per
    vertex; the first `influencesPerVertex` entries of a row are bone
    indices and the rest are weights. Indices are doubled because the bone
    list was doubled by the skeleton split. */
module SkinWeights {
  import Skeleton

  function Min(a: nat, b: nat): nat { if a <= b then a else b }

  /** The first k entries of a row, or the whole row when it is shorter. */
  function Front(row: seq<real>, k: nat): (r: seq<real>)
    ensures r <= row
    ensures |r| == Min(k, |row|)
  {
    row[..Min(k, |row|)]
  }

  /** What follows the first k entries of a row: with the front it makes up
      the row again. */
  function Back(row: seq<real>, k: nat): (r: seq<real>)
    ensures Front(row, k) + r == row
  {
    row[Min(k, |row|)..]
  }

  /** The index part of every row, row by row. */
  function Fronts(rows: seq<seq<real>>, k: nat): (r: seq<seq<real>>)
    ensures |r| == |rows|
  {
    seq(|rows|, v requires 0 <= v < |rows| => Front(rows[v], k))
  }

  /** The weight part of every row, row by row. */
  function Backs(rows: seq<seq<real>>, k: nat): (r: seq<seq<real>>)
    ensures |r| == |rows|
  {
    seq(|rows|, v requires 0 <= v < |rows| => Back(rows[v], k))
  }

  lemma ColumnsCons(rows: seq<seq<real>>, k: nat)
    requires rows != []
    ensures Fronts(rows, k) == [Front(rows[0], k)] + Fronts(rows[1..], k)
    ensures Backs(rows, k) == [Back(rows[0], k)] + Backs(rows[1..], k)
  {
    assert Fronts(rows, k)[1..] == Fronts(rows[1..], k);
    assert Backs(rows, k)[1..] == Backs(rows[1..], k);
  }

  /** The rows laid end to end: every entry of every row is in the result. */
  function Flatten(rows: seq<seq<real>>): (r: seq<real>)
    ensures forall v {:trigger multiset(rows[v])} :: 0 <= v < |rows| ==> multiset(rows[v]) <= multiset(r)
  {
    if rows == [] then []
    else
      var rest := Flatten(rows[1..]);
      assert forall v {:trigger multiset(rows[v])} :: 1 <= v < |rows| ==>
        multiset(rows[v]) == multiset(rows[1..][v - 1]);
      rows[0] + rest
  }

  /** Every entry times two; halving undoes it. */
  function Doubled(xs: seq<real>): (r: seq<real>)
    ensures Halved(r) == xs
  {
    seq(|xs|, i requires 0 <= i < |xs| => 2.0 * xs[i])
  }

  function Halved(xs: seq<real>): seq<real>
  {
    seq(|xs|, i requires 0 <= i < |xs| => xs[i] / 2.0)
  }

  /** Every row has `width` entries. */
  predicate Uniform(rows: seq<seq<real>>, width: nat)
  {
    forall r :: 0 <= r < |rows| ==> |rows[r]| == width
  }

  datatype SkinArrays = SkinArrays(skinIndices: seq<real>, skinWeights: seq<real>)

  /** `vertex_weights_to_skin_weights` from the compiled rows on: the index
      parts, flattened and doubled, and the weight parts, flattened. Between
      them the two arrays hold every entry of the table exactly once. */
  function VertexWeightsToSkinWeights(compiled: seq<seq<real>>, influencesPerVertex: nat): (r: SkinArrays)
    ensures multiset(Halved(r.skinIndices)) + multiset(r.skinWeights) == multiset(Flatten(compiled))
  {
    var skinIndices := Flatten(Fronts(compiled, influencesPerVertex));
    var skinWeights := Flatten(Backs(compiled, influencesPerVertex));
    SplitKeepsEntries(compiled, influencesPerVertex);
    SkinArrays(Doubled(skinIndices), skinWeights)
  }

  lemma DoubledConcat(a: seq<real>, b: seq<real>)
    ensures Doubled(a + b) == Doubled(a) + Doubled(b)
  {
  }

  /** The index columns and the weight columns of one table, together, hold
      exactly the table's entries. */
  lemma {:induction false} SplitKeepsEntries(rows: seq<seq<real>>, k: nat)
    ensures multiset(Flatten(Fronts(rows, k))) + multiset(Flatten(Backs(rows, k))) == multiset(Flatten(rows))
  {
    if rows != [] {
      SplitKeepsEntries(rows[1..], k);
      ColumnsCons(rows, k);
      assert Flatten(Fronts(rows, k)) == Front(rows[0], k) + Flatten(Fronts(rows[1..], k));
      assert Flatten(Backs(rows, k)) == Back(rows[0], k) + Flatten(Backs(rows[1..], k));
      assert rows[0] == Front(rows[0], k) + Back(rows[0], k);
    }
  }

  lemma MulSucc(n: nat, w: nat)
    ensures (n + 1) * w == n * w + w
  {
  }

  /** A table of `n` rows of `width` entries flattens to `n * width`
      entries. */
  lemma {:induction false} FlattenLength(rows: seq<seq<real>>, width: nat)
    requires Uniform(rows, width)
    ensures |Flatten(rows)| == |rows| * width
  {
    if rows != [] {
      FlattenLength(rows[1..], width);
      MulSucc(|rows| - 1, width);
    }
  }

  /** Where entry c of row v lands when every row holds `width` entries. */
  function Offset(v: nat, width: nat, c: nat): nat { v * width + c }

  /** In a table of rows of equal width, entry c of row v is entry
      `v * width + c` of the flattened table. */
  lemma {:induction false} FlattenAt(rows: seq<seq<real>>, width: nat, v: nat, c: nat)
    requires Uniform(rows, width) && v < |rows| && c < width
    ensures Offset(v, width, c) < |Flatten(rows)| && Flatten(rows)[Offset(v, width, c)] == rows[v][c]
  {
    FlattenLength(rows, width);
    if v > 0 {
      FlattenAt(rows[1..], width, v - 1, c);
      MulSucc(v - 1, width);
      FlattenLength(rows[1..], width);
    }
  }

  /** For a compiled table of `width` entries per vertex, with
      `k = min(influencesPerVertex, width)`: `skinIndices` holds `k` doubled
      indices per vertex and `skinWeights` the remaining `width - k`
      entries, vertex after vertex. */
  lemma SkinArraysLength(compiled: seq<seq<real>>, influencesPerVertex: nat, width: nat)
    requires Uniform(compiled, width)
    ensures var a := VertexWeightsToSkinWeights(compiled, influencesPerVertex);
            var k := Min(influencesPerVertex, width);
            |a.skinIndices| == |compiled| * k && |a.skinWeights| == |compiled| * (width - k)
  {
    var k := Min(influencesPerVertex, width);
    FlattenLength(Fronts(compiled, influencesPerVertex), k);
    FlattenLength(Backs(compiled, influencesPerVertex), width - k);
  }

  /** Entry c of vertex v's row lands, doubled, at `v * k + c` of
      `skinIndices` when it is one of the first `k` entries, and at
      `v * (width - k) + (c - k)` of `skinWeights` otherwise. */
  lemma SkinArraysAt(compiled: seq<seq<real>>, influencesPerVertex: nat, width: nat, v: nat, c: nat)
    requires Uniform(compiled, width) && v < |compiled| && c < width
    ensures var a := VertexWeightsToSkinWeights(compiled, influencesPerVertex);
            var k := Min(influencesPerVertex, width);
            && (c < k ==> Offset(v, k, c) < |a.skinIndices| && a.skinIndices[Offset(v, k, c)] == 2.0 * compiled[v][c])
            && (k <= c ==> Offset(v, width - k, c - k) < |a.skinWeights|
                             && a.skinWeights[Offset(v, width - k, c - k)] == compiled[v][c])
  {
    var k := Min(influencesPerVertex, width);
    var a := VertexWeightsToSkinWeights(compiled, influencesPerVertex);
    assert a.skinIndices == Doubled(Flatten(Fronts(compiled, influencesPerVertex)));
    assert a.skinWeights == Flatten(Backs(compiled, influencesPerVertex));
    if c < k {
      IndexPartAt(compiled, influencesPerVertex, width, v, c);
    } else {
      WeightPartAt(compiled, influencesPerVertex, width, v, c);
    }
  }

  /** Entry c < k of row v, doubled, in the doubled index columns. */
  lemma IndexPartAt(rows: seq<seq<real>>, influencesPerVertex: nat, width: nat, v: nat, c: nat)
    requires Uniform(rows, width) && v < |rows| && c < Min(influencesPerVertex, width)
    ensures var xs := Doubled(Flatten(Fronts(rows, influencesPerVertex)));
            var p := Offset(v, Min(influencesPerVertex, width), c);
            p < |xs| && xs[p] == 2.0 * rows[v][c]
  {
    var k := Min(influencesPerVertex, width);
    var fronts := Fronts(rows, influencesPerVertex);
    ColumnsUniform(rows, influencesPerVertex, width);
    RowSplitAt(rows[v], influencesPerVertex, c);
    FlattenAt(fronts, k, v, c);
  }

  /** Entry c >= k of row v in the weight columns. */
  lemma WeightPartAt(rows: seq<seq<real>>, influencesPerVertex: nat, width: nat, v: nat, c: nat)
    requires Uniform(rows, width) && v < |rows| && Min(influencesPerVertex, width) <= c < width
    ensures var ys := Flatten(Backs(rows, influencesPerVertex));
            var k := Min(influencesPerVertex, width);
            Offset(v, width - k, c - k) < |ys| && ys[Offset(v, width - k, c - k)] == rows[v][c]
  {
    var k := Min(influencesPerVertex, width);
    var backs := Backs(rows, influencesPerVertex);
    ColumnsUniform(rows, influencesPerVertex, width);
    RowSplitAt(rows[v], influencesPerVertex, c);
    FlattenAt(backs, width - k, v, c - k);
  }

  /** With rows of `width` entries, every index part has `k` entries and
      every weight part `width - k`. */
  lemma ColumnsUniform(rows: seq<seq<real>>, influencesPerVertex: nat, width: nat)
    requires Uniform(rows, width)
    ensures Uniform(Fronts(rows, influencesPerVertex), Min(influencesPerVertex, width))
    ensures Uniform(Backs(rows, influencesPerVertex), width - Min(influencesPerVertex, width))
  {
  }

  /** Entry c of a row is entry c of its front or entry c - k of its back. */
  lemma RowSplitAt(row: seq<real>, k: nat, c: nat)
    requires c < |row|
    ensures c < Min(k, |row|) ==> c < |Front(row, k)| && Front(row, k)[c] == row[c]
    ensures Min(k, |row|) <= c ==> c - Min(k, |row|) < |Back(row, k)|
                                   && Back(row, k)[c - Min(k, |row|)] == row[c]
  {
  }

  /** A reader's view of the two arrays: vertex after vertex, `k` halved
      indices followed by `w` weights. */
  function Rejoin(indices: seq<real>, weights: seq<real>, n: nat, k: nat, w: nat): (rows: seq<seq<real>>)
    requires |indices| == n * k && |weights| == n * w
    ensures |rows| == n
  {
    if n == 0 then []
    else
      assert n * k == k + (n - 1) * k && n * w == w + (n - 1) * w;
      [Halved(indices[..k]) + weights[..w]] + Rejoin(indices[k..], weights[w..], n - 1, k, w)
  }

  /** Reading the arrays back vertex by vertex gives back the compiled table:
      no entry is dropped, duplicated or moved to another vertex. */
  lemma RejoinRecoversCompiled(compiled: seq<seq<real>>, influencesPerVertex: nat, width: nat)
    requires Uniform(compiled, width)
    ensures var a := VertexWeightsToSkinWeights(compiled, influencesPerVertex);
            var k := Min(influencesPerVertex, width);
            && |a.skinIndices| == |compiled| * k
            && |a.skinWeights| == |compiled| * (width - k)
            && Rejoin(a.skinIndices, a.skinWeights, |compiled|, k, width - k) == compiled
  {
    var a := VertexWeightsToSkinWeights(compiled, influencesPerVertex);
    assert a.skinIndices == Doubled(Flatten(Fronts(compiled, influencesPerVertex)));
    assert a.skinWeights == Flatten(Backs(compiled, influencesPerVertex));
    RejoinColumns(compiled, influencesPerVertex, width);
  }

  /** The same round trip, stated on the flattened columns. */
  lemma {:induction false} RejoinColumns(rows: seq<seq<real>>, influencesPerVertex: nat, width: nat)
    requires Uniform(rows, width)
    ensures var k := Min(influencesPerVertex, width);
            var indices := Doubled(Flatten(Fronts(rows, influencesPerVertex)));
            var weights := Flatten(Backs(rows, influencesPerVertex));
            && |indices| == |rows| * k
            && |weights| == |rows| * (width - k)
            && Rejoin(indices, weights, |rows|, k, width - k) == rows
  {
    if rows == [] {
      assert Fronts(rows, influencesPerVertex) == [] && Backs(rows, influencesPerVertex) == [];
    } else {
      var rest := rows[1..];
      assert Uniform(rest, width) by {
        forall r | 0 <= r < |rest| ensures |rest[r]| == width {
          assert rest[r] == rows[r + 1];
        }
      }
      RejoinColumns(rest, influencesPerVertex, width);
      ColumnsCons(rows, influencesPerVertex);
      RejoinRow(rows[0], rest, influencesPerVertex, width,
                Flatten(Fronts(rest, influencesPerVertex)), Flatten(Backs(rest, influencesPerVertex)));
      assert rows == [rows[0]] + rest;
    }
  }

  /** The inductive step of `RejoinColumns`: one more row in front. */
  lemma RejoinRow(row: seq<real>, rest: seq<seq<real>>, influencesPerVertex: nat, width: nat,
                  fronts: seq<real>, backs: seq<real>)
    requires |row| == width
    requires var k := Min(influencesPerVertex, width);
             && |Doubled(fronts)| == |rest| * k && |backs| == |rest| * (width - k)
             && Rejoin(Doubled(fronts), backs, |rest|, k, width - k) == rest
    ensures var k := Min(influencesPerVertex, width);
            var indices := Doubled(Front(row, influencesPerVertex) + fronts);
            var weights := Back(row, influencesPerVertex) + backs;
            && |indices| == (|rest| + 1) * k && |weights| == (|rest| + 1) * (width - k)
            && Rejoin(indices, weights, |rest| + 1, k, width - k) == [row] + rest
  {
    var k := Min(influencesPerVertex, width);
    var front, back := Front(row, influencesPerVertex), Back(row, influencesPerVertex);
    DoubledConcat(front, fronts);
    RejoinStep(front, back, Doubled(fronts), backs, |rest|, k, width - k);
    assert row == front + back;
  }

  /** The arrays of a table are those of its first row followed by those of
      the remaining rows. */
  lemma SkinArraysCons(compiled: seq<seq<real>>, influencesPerVertex: nat)
    requires compiled != []
    ensures var a := VertexWeightsToSkinWeights(compiled, influencesPerVertex);
            var b := VertexWeightsToSkinWeights(compiled[1..], influencesPerVertex);
            && a.skinIndices == Doubled(Front(compiled[0], influencesPerVertex)) + b.skinIndices
            && a.skinWeights == Back(compiled[0], influencesPerVertex) + b.skinWeights
  {
    var rest := compiled[1..];
    ColumnsCons(compiled, influencesPerVertex);
    var front := Front(compiled[0], influencesPerVertex);
    assert Flatten(Fronts(compiled, influencesPerVertex)) == front + Flatten(Fronts(rest, influencesPerVertex));
    assert Flatten(Backs(compiled, influencesPerVertex))
           == Back(compiled[0], influencesPerVertex) + Flatten(Backs(rest, influencesPerVertex));
    DoubledConcat(front, Flatten(Fronts(rest, influencesPerVertex)));
  }

  /** Reading one more vertex off the front of the arrays. */
  lemma RejoinStep(front: seq<real>, back: seq<real>, indices: seq<real>, weights: seq<real>, n: nat, k: nat, w: nat)
    requires |front| == k && |back| == w && |indices| == n * k && |weights| == n * w
    ensures |Doubled(front) + indices| == (n + 1) * k && |back + weights| == (n + 1) * w
    ensures Rejoin(Doubled(front) + indices, back + weights, n + 1, k, w)
            == [front + back] + Rejoin(indices, weights, n, k, w)
  {
    MulSucc(n, k);
    MulSucc(n, w);
    var xs := Doubled(front) + indices;
    var ys := back + weights;
    assert xs[..k] == Doubled(front) && xs[k..] == indices;
    assert ys[..w] == back && ys[w..] == weights;
  }

  /** A doubled skin index points at the `____head` record of the bone it
      named, in the split bone list. */
  lemma DoubledIndexSelectsHeadRecord(skel: seq<Skeleton.Bone>, compiled: seq<seq<real>>,
                                      influencesPerVertex: nat, width: nat, v: nat, c: nat, j: nat)
    requires Skeleton.ValidSkeleton(skel) && Uniform(compiled, width)
    requires v < |compiled| && c < Min(influencesPerVertex, width)
    requires j < |skel| && compiled[v][c] == j as real
    ensures var a := VertexWeightsToSkinWeights(compiled, influencesPerVertex);
            var p := Offset(v, Min(influencesPerVertex, width), c);
            var bones := Skeleton.SplitBones(skel);
            && p < |a.skinIndices| && a.skinIndices[p] == (2 * j) as real
            && 2 * j < |bones| && bones[2 * j] == Skeleton.HeadRecord(skel, j)
            && bones[2 * j].name == skel[j].name + Skeleton.HeadSuffix
  {
    SkinArraysAt(compiled, influencesPerVertex, width, v, c);
    var a := VertexWeightsToSkinWeights(compiled, influencesPerVertex);
    var p := Offset(v, Min(influencesPerVertex, width), c);
    assert a.skinIndices[p] == 2.0 * (j as real) == (2 * j) as real;
    Skeleton.HeadRecordLinks(skel, j);
    assert Skeleton.SplitBones(skel)[2 * j] == Skeleton.HeadRecord(skel, j);
  }
}
